=== FILE: README.md ===
# AnatoLexic puzzle core in Dafny

AnatoLexic is a desktop trainer for anatomical vocabulary. Each round draws a word from a theme/subtheme word list. The learner then solves it in one of two ways:

- In flashcard mode the word is shown as blanks. The learner reveals it by suggesting letters or asking for hints.
- In normal mode the word is shown with its letters shuffled inside each run of letters.

In both modes the learner can also type the word to score a point.

This project models that round logic as pure functions over an immutable state record. The Tk event handlers of `Application` in `app.py` and the shuffle in `utils/text_utils.py` are rewritten this way, and the project proves what they guarantee.

- `options.dfy` (`Options`): the `Option` type standing for Python's `None`.
- `chars.dfy` (`Chars`): `str.lower` as a per-character map, `str.strip()`, and `str.replace(" ", "")`.
- `text_utils.dfy` (`TextUtils`): the letter class `[a-zA-ZÀ-ÖÙ-Ýà-öù-ý]`, the cut into maximal letter and non-letter runs, and `shuffle_preserving_punctuation`.
- `buffer.dfy` (`Buffer`): the display buffer (`displayed_list`). This covers the flashcard blanks, the letter-reveal loop, the hint candidates and the completion test.
- `game.dfy` (`Game`): the state (`current_word`, `current_definition`, `displayed_list`, `flashcard_mode`, `score`, `total_attempts`). It holds the handlers `update_word`, `toggle_flashcard_mode`, `suggest_letter`, `give_hint`, `type_word` and `verify_answer`. `suggest_letter`, `give_hint`, `type_word` and `verify_answer` each return a `Step`: the next state and an `Outcome` naming the branch taken. `update_word` and `toggle_flashcard_mode` return the next state, or `None` while the redraw loop has not exited. Most branches show a message box or update a label. A given hint shows no message box but redraws the displayed word. Only a cancelled or empty dialog answer and `verify_answer` without a word (`Ignored`) show nothing.

Randomness comes in as oracle arguments:

- `random.choice` in `update_word` reads from a finite list `draws`. The j-th call picks `draws[j] % len`.
- The redraw loop has no bound in the source. `Draw` returns `None` when the loop has not exited within the draws supplied. Properties are proved about the state the loop exits with.
- `random.shuffle` is CPython's Fisher–Yates pass. It swaps index `i` with `randbelow(i+1)` for `i = n-1 … 1`. The `randbelow` draws are numbered across the whole `shuffle_preserving_punctuation` call: each letter segment continues from where the previous one stopped, and the k-th draw is `rand(k) % (i+1)`.
- `random.choice` in `give_hint` is `pick % len(non_matching_indices)`.

Behaviour worth knowing:

- `update_word` redraws until the word differs from the previous one, with no bound on the number of draws (app.py:348-349).
- `give_hint` has no flashcard gate (app.py:523-528), so hints also work in normal mode.
- Flashcard blanks keep only spaces (app.py:367-371). The apostrophe of "arc de l'aorte" is concealed like a letter (`Game.ArcExample`).
- An empty word list clears the word and the definition but keeps the old `displayed_list` (app.py:336-344).

## Model

| member | source | states |
|---|---|---|
| Chars.LowerChar | app.py:501-502 | lowering maps one character to one character: every character that is not a capital lowers to itself, ASCII capitals and the Latin-1 capitals À–Þ except × move down by 32, no capital is produced, and only a space lowers to a space and only `_` lowers to `_` |
| Chars.Lower | app.py:501-516 | lowering a string keeps its length and its spaces, leaves no capital, and returns a string without capitals unchanged |
| Chars.RemoveSpaces | app.py:514-515 | removing spaces leaves no space, never lengthens the string, and returns a string without spaces unchanged |
| Chars.RemoveSpacesAppend | app.py:514-515 | removing spaces distributes over concatenation, so every non-space character is kept in order |
| Chars.Strip | app.py:497-498 | `strip()` yields the slice left after cutting only whitespace at both ends, and the slice neither starts nor ends with whitespace |
| Chars.RemoveSpacesAligned | app.py:514-516 | for two equally long strings with spaces at the same positions, removing spaces gives equal results iff they agree on every non-space position |
| TextUtils.IsLetter | utils/text_utils.py:9 | the letter class contains every ASCII letter and no whitespace, no `_` and nothing beyond U+00FF |
| TextUtils.IsLetterRun | utils/text_utils.py:14 | a string passing the full-match test is a run, and on a run the test is decided by its first character |
| TextUtils.RunLength | utils/text_utils.py:9-10 | the run at the front of a non-empty text is homogeneous in the letter class and stops exactly where the class changes |
| TextUtils.Segments | utils/text_utils.py:9-10 | the segments concatenate back to the text, each is a non-empty run inside or outside the letter class, and neighbours differ in class (maximal runs) |
| TextUtils.SegmentsUnique | utils/text_utils.py:9-10 | every partition of the text into alternating maximal runs equals the one `findall` produces |
| TextUtils.LetterClassExamples | utils/text_utils.py:9 | é, À, Ö, Ù, ý are letters; ×, Ø, ß, ÷, ÿ, Þ, ø, space, apostrophe and hyphen are not |
| TextUtils.FisherYates | utils/text_utils.py:15-16 | the swap loop of `random.shuffle` keeps the length and the multiset of characters for every random oracle |
| TextUtils.ShuffleRun | utils/text_utils.py:15-17 | shuffling one segment yields a rearrangement of it |
| TextUtils.ShuffleSegments | utils/text_utils.py:12-19 | each letter segment is replaced by a rearrangement of itself and each other segment is kept verbatim |
| TextUtils.ShufflePreservingPunctuation | utils/text_utils.py:4-21 | the output has the input's length and multiset of characters; position i holds a letter iff the input does, and every non-letter stays at its position |
| TextUtils.ShuffleBySegments | utils/text_utils.py:13-21 | every input segment and its output occupy the same index range; a letter segment's output is a permutation of it and any other segment is copied |
| TextUtils.ConcatShuffled | utils/text_utils.py:21 | joining segment-wise shuffled results preserves the multiset and the letter/non-letter positions of the joined input |
| Buffer.Complete | app.py:514-516 | a buffer equal to the word up to case is complete, and with spaces aligned completeness means equality up to case at every position |
| Buffer.Blanks | app.py:365-371 | the flashcard buffer has the word's length, a space wherever the word has one and `_` everywhere else, so it conceals the word |
| Buffer.RevealLetter | app.py:501-509 | positions that are `_` and whose lowered word character equals the lowered letter take the original-case word character; all others are unchanged; the count is the number of such positions |
| Buffer.RevealKeepsInvariants | app.py:505-508 | revealing keeps the buffer a concealment of the word and keeps spaces aligned |
| Buffer.RevealTwice | app.py:505-509 | a second reveal with the same letter changes nothing, and counts 0 when the word holds no `_` |
| Buffer.NonMatching | app.py:537-542 | the hint candidates are exactly the non-space positions differing from the word up to case, in increasing order |
| Buffer.HintShrinksNonMatching | app.py:548-549 | fixing one candidate position removes exactly one hint candidate |
| Buffer.CompleteIffNoMismatch | app.py:530-546 | with spaces aligned, the completion test holds iff there is no hint candidate, so the "no mismatching index" branch cannot be reached |
| Buffer.CompleteIffRevealed | app.py:514-516 | for a concealing buffer the completion test holds iff the buffer equals the word, and (for words without `_`) iff no `_` remains |
| Game.WordSelectedGuard | app.py:292-300 | a word counts as selected unless it is `None` or empty; exactly then `suggest_letter`, `give_hint` and `type_word` report that no word is selected, `verify_answer` returns silently (app.py:406-407), and all four leave the state unchanged |
| Game.InitialConsistent | app.py:153-166 | the initial state satisfies the buffer invariant and score ≤ attempts |
| Game.Draw | app.py:346-349 | the loop exits iff some draw is acceptable, with the first acceptable draw; the result indexes the pool and differs from the previous word when the pool has more than one entry |
| Game.DrawNeverExits | app.py:346-349 | a list of two or more entries that all carry the previous word never lets the redraw loop exit, whatever the draws |
| Game.UpdateWord | app.py:319-385 | no theme/subtheme clears word, definition and buffer; an empty list clears word and definition; otherwise the new pair is from the list, differs from the previous word if the list has several entries, and the buffer is blanks (flashcard) or the punctuation-preserving shuffle of the new word, a permutation keeping every non-letter in place (normal) |
| Game.ToggleFlashcardMode | app.py:479-485 | the mode flips and the redrawn state satisfies the buffer invariant for the new mode |
| Game.SuggestLetter | app.py:487-521 | no word, flashcard off, cancelled/empty input and a stripped input not of length 1 leave the state unchanged; otherwise only matching `_` positions change, to the original-case character, the count is the number of them, and the buffer invariant is kept |
| Game.SuggestTwice | app.py:494-509 | suggesting the same input twice leaves the second state equal to the first, with zero revelations when the word holds no `_` |
| Game.GiveHint | app.py:523-557 | no word, an empty buffer and a complete buffer leave the state unchanged; otherwise exactly one non-space case-mismatching index, chosen by the oracle, takes the true character, the candidate count drops by one, and under the invariant the "no mismatch" branch never occurs |
| Game.HintsComplete | app.py:537-557 | as many hints as there are candidates complete the word, after which a hint reports it already complete and changes nothing |
| Game.VerifyAnswer | app.py:405-416 | without a word it returns silently; otherwise the score rises by one iff the answer equals the word up to case; nothing else changes |
| Game.TypeWord | app.py:397-403 | a non-empty answer adds one attempt before verification, so score ≤ attempts is preserved, and the buffer invariant is kept |
| Game.HumerusExample | app.py:494-509 | "humérus" starts as seven blanks, " u " reveals indices 1 and 5 with count 2, and "HUMÉRUS" typed scores |
| Game.ArcExample | app.py:367-371 | the flashcard buffer of "arc de l'aorte" keeps the two spaces and conceals the apostrophe |

## Left out

- Tk widget work (labels, message boxes, dialogs), the timer countdown and the image and Wikipedia/YouTube lookups. These are I/O and GUI scheduling. The dialog answers come in as `Option<string>` arguments.
- The word bank `words` and the theme/subtheme menus. The `words` module is not part of this model. `UpdateWord` receives the selected word list, or `None` when no theme or subtheme is selected.
- `letter_index` (app.py:353). It is written but never read by the modelled handlers.
- `change_word` (app.py:387-393). Apart from the image and timer resets it only calls `update_word`, which is modelled.
- Chars.LowerChar: only ASCII and Latin-1 capitals are lowered. Python's full-Unicode `str.lower` (which may change a string's length) is not modelled.
- The uniformity of `random.choice` and `random.shuffle`. Draws are oracle arguments, so no distribution is proved.
- Game.Draw: the redraw loop is bounded by the finite oracle list. When the list runs out before the loop would exit, the result is `None` and nothing is claimed. The loop truly never exits on a list of two or more entries whose words all equal the current word, for instance one word listed twice (`Game.DrawNeverExits`).

=== FILE: buffer.dfy ===
/**
 The display buffer of a round (`displayed_list` in app.py) and the operations
 on it that do not depend on the rest of the application state: concealing a
 word for flashcard mode, revealing a guessed letter, listing the positions a
 hint may fix, and the completion test.
 */
module Buffer {
  import opened Chars

  /** The glyph shown for a concealed letter. */
  const Placeholder: char := '_'

  /** Spaces sit in the same positions in the buffer and in the word. Holds in both modes. */
  predicate SpaceAligned(d: string, w: string)
  {
    |d| == |w| && forall i :: 0 <= i < |d| ==> (d[i] == ' ' <==> w[i] == ' ')
  }

  /** Flashcard-mode invariant: each position shows its true character or, if the true
      character is not a space, the placeholder. */
  predicate Concealing(d: string, w: string)
  {
    |d| == |w| && forall i :: 0 <= i < |d| ==> d[i] == w[i] || (d[i] == Placeholder && w[i] != ' ')
  }

  /** The flashcard buffer built character by character: a space for a space, the
      placeholder for anything else. */
  function Blanks(w: string): (d: string)
    ensures |d| == |w|
    ensures forall i :: 0 <= i < |w| ==> d[i] == (if w[i] == ' ' then ' ' else Placeholder)
    ensures Concealing(d, w)
  {
    if |w| == 0 then []
    else Blanks(w[..|w| - 1]) + [if w[|w| - 1] == ' ' then ' ' else Placeholder]
  }

  /** The completion test of `suggest_letter` and `give_hint`: buffer and word agree once
      lowered and stripped of spaces. A buffer equal to the word up to case passes, and when
      spaces are aligned passing means exactly that. */
  predicate Complete(d: string, w: string)
    ensures Lower(d) == Lower(w) ==> Complete(d, w)
    ensures SpaceAligned(d, w) ==>
      (Complete(d, w) <==> forall i :: 0 <= i < |d| ==> LowerChar(d[i]) == LowerChar(w[i]))
  {
    assert SpaceAligned(d, w) ==>
      (RemoveSpaces(Lower(d)) == RemoveSpaces(Lower(w)) <==> forall i :: 0 <= i < |d| ==> LowerChar(d[i]) == LowerChar(w[i]))
    by {
      if SpaceAligned(d, w) {
        RemoveSpacesAligned(Lower(d), Lower(w));
      }
    }
    RemoveSpaces(Lower(d)) == RemoveSpaces(Lower(w))
  }

  /** Position `i` would be revealed by guessing `c`: it is concealed and the word has a
      character there whose lower case is that of `c`. */
  predicate Matches(d: string, w: string, c: char, i: int)
  {
    0 <= i < |d| && d[i] == Placeholder && i < |w| && LowerChar(w[i]) == LowerChar(c)
  }

  function MatchSet(d: string, w: string, c: char): (r: set<int>)
  {
    set i | 0 <= i < |d| && Matches(d, w, c, i)
  }

  /** The last position joins the match set of the prefix when it matches. */
  lemma MatchSetStep(d: string, w: string, c: char)
    requires |d| > 0
    ensures var n := |d| - 1;
            forall i :: 0 <= i < n ==> (Matches(d[..n], w, c, i) <==> Matches(d, w, c, i))
    ensures var n := |d| - 1;
            |MatchSet(d, w, c)| == |MatchSet(d[..n], w, c)| + (if Matches(d, w, c, n) then 1 else 0)
  {
    var n := |d| - 1;
    assert forall i :: 0 <= i < n ==> (Matches(d[..n], w, c, i) <==> Matches(d, w, c, i));
    if Matches(d, w, c, n) {
      assert MatchSet(d, w, c) == MatchSet(d[..n], w, c) + {n};
    } else {
      assert MatchSet(d, w, c) == MatchSet(d[..n], w, c);
    }
  }

  /** The reveal loop of `suggest_letter`: the matching positions take the word's
      original-case character, every other position is untouched, and the count is the
      number of matching positions. */
  function RevealLetter(d: string, w: string, c: char): (r: (string, nat))
    ensures |r.0| == |d|
    ensures forall i :: 0 <= i < |d| && Matches(d, w, c, i) ==> r.0[i] == w[i]
    ensures forall i :: 0 <= i < |d| && !Matches(d, w, c, i) ==> r.0[i] == d[i]
    ensures r.1 == |MatchSet(d, w, c)|
    decreases |d|
  {
    if |d| == 0 then ([], 0)
    else
      var n := |d| - 1;
      var p := RevealLetter(d[..n], w, c);
      MatchSetStep(d, w, c);
      if Matches(d, w, c, n) then (p.0 + [w[n]], p.1 + 1)
      else (p.0 + [d[n]], p.1)
  }

  /** Revealing keeps the buffer a concealment of the word, and keeps spaces aligned. */
  lemma RevealKeepsInvariants(d: string, w: string, c: char)
    ensures Concealing(d, w) ==> Concealing(RevealLetter(d, w, c).0, w)
    ensures SpaceAligned(d, w) ==> SpaceAligned(RevealLetter(d, w, c).0, w)
  {
  }

  /** Guessing the same letter twice: the second pass changes nothing, and when the word
      itself holds no placeholder character it reveals nothing either. */
  lemma RevealTwice(d: string, w: string, c: char)
    ensures var d1 := RevealLetter(d, w, c).0;
            RevealLetter(d1, w, c).0 == d1
            && (Placeholder !in w ==> RevealLetter(d1, w, c).1 == 0)
  {
  }

  /** Position `i` is one `give_hint` may choose: not a space, and differing from the word
      once both are lowered. */
  predicate Mismatch(d: string, w: string, i: int)
  {
    0 <= i < |d| && d[i] != ' ' && i < |w| && LowerChar(d[i]) != LowerChar(w[i])
  }

  /** `non_matching_indices` of `give_hint`: exactly the mismatching positions, in
      increasing order. */
  function NonMatching(d: string, w: string): (r: seq<nat>)
    ensures forall k :: 0 <= k < |r| ==> Mismatch(d, w, r[k])
    ensures forall i :: Mismatch(d, w, i) ==> i in r
    ensures forall k, l :: 0 <= k < l < |r| ==> r[k] < r[l]
    decreases |d|
  {
    if |d| == 0 then []
    else
      var n := |d| - 1;
      assert forall i :: 0 <= i < n ==> (Mismatch(d[..n], w, i) <==> Mismatch(d, w, i));
      NonMatching(d[..n], w) + (if Mismatch(d, w, n) then [n] else [])
  }

  /** Fixing one mismatching position removes exactly one entry from the hint list. */
  lemma {:induction false} HintShrinksNonMatching(d: string, w: string, k: nat)
    requires Mismatch(d, w, k)
    ensures |NonMatching(d[k := w[k]], w)| == |NonMatching(d, w)| - 1
    decreases |d|
  {
    var d' := d[k := w[k]];
    var n := |d| - 1;
    assert !Mismatch(d', w, k);
    if k == n {
      assert d'[..n] == d[..n];
    } else {
      assert d'[..n] == d[..n][k := w[k]];
      HintShrinksNonMatching(d[..n], w, k);
      assert Mismatch(d', w, n) == Mismatch(d, w, n);
    }
  }

  /** With spaces aligned, the buffer is complete exactly when no position mismatches:
      the completion test and the hint list agree. */
  lemma CompleteIffNoMismatch(d: string, w: string)
    requires SpaceAligned(d, w)
    ensures Complete(d, w) <==> NonMatching(d, w) == []
    ensures Complete(d, w) <==> forall i :: !Mismatch(d, w, i)
  {
    var a, b := Lower(d), Lower(w);
    RemoveSpacesAligned(a, b);
    forall i | 0 <= i < |a|
      ensures (a[i] != ' ' ==> a[i] == b[i]) <==> !Mismatch(d, w, i)
    {
    }
    if forall i :: !Mismatch(d, w, i) {
      assert forall i :: 0 <= i < |a| && a[i] != ' ' ==> a[i] == b[i];
    }
    if NonMatching(d, w) != [] {
      assert Mismatch(d, w, NonMatching(d, w)[0]);
    }
  }

  /** In flashcard mode the buffer is complete exactly when it equals the word, and, for a
      word without the placeholder character, exactly when no placeholder remains. */
  lemma CompleteIffRevealed(d: string, w: string)
    requires Concealing(d, w)
    ensures Complete(d, w) <==> d == w
    ensures Placeholder !in w ==> (Complete(d, w) <==> Placeholder !in d)
  {
    CompleteIffNoMismatch(d, w);
    if Complete(d, w) {
      forall i | 0 <= i < |d|
        ensures d[i] == w[i]
      {
        assert !Mismatch(d, w, i);
      }
    }
    if Placeholder !in w && Placeholder !in d {
      forall i | 0 <= i < |d|
        ensures !Mismatch(d, w, i)
      {
        assert d[i] in d;
      }
    }
    if Placeholder !in w && Complete(d, w) {
      assert d == w;
    }
  }
}

=== FILE: chars.dfy ===
/**
 Character-level helpers the puzzle relies on: the lowering done by Python's
 `str.lower`, the whitespace stripping of `str.strip`, and the space removal of
 `str.replace(" ", "")`. Lowering is modelled as a length-preserving map on
 single characters.
 */
module Chars {

  /** The capitals `str.lower` changes in this model. */
  predicate IsUpper(c: char)
  {
    'A' <= c <= 'Z' || ('\U{C0}' <= c <= '\U{DE}' && c != '\U{D7}')
  }

  /** `str.lower` on one character: ASCII capitals and the Latin-1 capitals
      U+00C0..U+00DE (except the multiplication sign U+00D7) move down by 0x20;
      every other character is its own lower case in this model. */
  function LowerChar(c: char): (r: char)
    ensures (r == ' ') <==> (c == ' ')
    ensures (r == '_') <==> (c == '_')
    ensures 'a' <= c <= 'z' ==> r == c
    ensures 'A' <= c <= 'Z' ==> r as int == c as int + 32
    ensures '\U{C0}' <= c <= '\U{DE}' && c != '\U{D7}' ==> r as int == c as int + 32
    ensures !IsUpper(r)
    ensures !IsUpper(c) ==> r == c
  {
    if IsUpper(c) then
      (c as int + 32) as char
    else
      c
  }

  /** `str.lower` on a whole string, one character at a time: no capital survives, spaces
      stay where they were, and a string without capitals is returned unchanged. */
  function Lower(s: string): (r: string)
    ensures |r| == |s|
    ensures forall i :: 0 <= i < |r| ==> !IsUpper(r[i])
    ensures forall i :: 0 <= i < |s| ==> (r[i] == ' ' <==> s[i] == ' ')
    ensures (forall i :: 0 <= i < |s| ==> !IsUpper(s[i])) ==> r == s
  {
    seq(|s|, i requires 0 <= i < |s| => LowerChar(s[i]))
  }

  /** The characters for which Python's `str.isspace` holds. */
  predicate IsWhitespace(c: char)
  {
    ('\U{09}' <= c <= '\U{0D}') || ('\U{1C}' <= c <= '\U{20}') || c == '\U{85}' || c == '\U{A0}'
    || c == '\U{1680}' || ('\U{2000}' <= c <= '\U{200A}') || c == '\U{2028}' || c == '\U{2029}'
    || c == '\U{202F}' || c == '\U{205F}' || c == '\U{3000}'
  }

  /** Number of whitespace characters at the front of `s`. */
  function Leading(s: string): (n: nat)
    ensures n <= |s|
    ensures forall i :: 0 <= i < n ==> IsWhitespace(s[i])
    ensures n < |s| ==> !IsWhitespace(s[n])
  {
    if |s| > 0 && IsWhitespace(s[0]) then
      var m := Leading(s[1..]);
      assert forall i :: 1 <= i < m + 1 ==> s[i] == s[1..][i - 1];
      m + 1
    else 0
  }

  /** Number of whitespace characters at the end of `s`. */
  function Trailing(s: string): (n: nat)
    ensures n <= |s|
    ensures forall i :: |s| - n <= i < |s| ==> IsWhitespace(s[i])
    ensures n < |s| ==> !IsWhitespace(s[|s| - n - 1])
  {
    if |s| > 0 && IsWhitespace(s[|s| - 1]) then 1 + Trailing(s[..|s| - 1]) else 0
  }

  /** `str.strip()`: the slice of `s` left after cutting the whitespace at both ends; it
      neither starts nor ends with whitespace. */
  function Strip(s: string): (r: string)
    ensures Leading(s) + |r| <= |s| && r == s[Leading(s)..Leading(s) + |r|]
    ensures forall i :: 0 <= i < Leading(s) ==> IsWhitespace(s[i])
    ensures forall i :: Leading(s) + |r| <= i < |s| ==> IsWhitespace(s[i])
    ensures |r| > 0 ==> !IsWhitespace(r[0]) && !IsWhitespace(r[|r| - 1])
  {
    var a := Leading(s);
    var b := |s| - Trailing(s[a..]);
    TrailingOfSuffix(s, a);
    s[a..b]
  }

  /** The trailing whitespace of a suffix, read back in the whole string. */
  lemma TrailingOfSuffix(s: string, a: nat)
    requires a <= |s|
    ensures var b := |s| - Trailing(s[a..]);
            a <= b
            && (forall j :: b <= j < |s| ==> IsWhitespace(s[j]))
            && (a < b ==> !IsWhitespace(s[b - 1]))
  {
  }

  /** `str.replace(" ", "")`: the string with every U+0020 removed, order kept. */
  function RemoveSpaces(s: string): (r: string)
    ensures |r| <= |s|
    ensures ' ' !in r
    ensures (forall i :: 0 <= i < |s| ==> s[i] != ' ') ==> r == s
  {
    if |s| == 0 then []
    else
      var n := |s| - 1;
      assert s[..n] + [s[n]] == s;
      RemoveSpaces(s[..n]) + (if s[n] == ' ' then [] else [s[n]])
  }

  /** Appending one element to each of two sequences gives equal results only from equal parts. */
  lemma SnocInjective<T>(x: seq<T>, y: seq<T>, c: T, e: T)
    ensures x + [c] == y + [e] <==> x == y && c == e
  {
    if x + [c] == y + [e] {
      assert x == (x + [c])[..|x|];
      assert y == (y + [e])[..|y|];
    }
  }

  /** `a` and `b` agree on every position where `a` has no space. */
  predicate AgreeOffSpaces(a: string, b: string)
    requires |a| == |b|
  {
    forall i :: 0 <= i < |a| && a[i] != ' ' ==> a[i] == b[i]
  }

  lemma AgreeOffSpacesSnoc(a: string, b: string)
    requires |a| == |b| > 0
    ensures AgreeOffSpaces(a, b)
        <==> AgreeOffSpaces(a[..|a| - 1], b[..|b| - 1]) && (a[|a| - 1] != ' ' ==> a[|a| - 1] == b[|b| - 1])
  {
  }

  /** Two strings of equal length with spaces in the same positions lose the same positions
      when spaces are removed, so the results agree exactly when every non-space position does. */
  lemma {:induction false} RemoveSpacesAligned(a: string, b: string)
    requires |a| == |b|
    requires forall i :: 0 <= i < |a| ==> (a[i] == ' ' <==> b[i] == ' ')
    ensures RemoveSpaces(a) == RemoveSpaces(b) <==> AgreeOffSpaces(a, b)
  {
    if |a| > 0 {
      var n := |a| - 1;
      var a', b' := a[..n], b[..n];
      RemoveSpacesAligned(a', b');
      AgreeOffSpacesSnoc(a, b);
      var ra, rb := RemoveSpaces(a'), RemoveSpaces(b');
      if a[n] == ' ' {
        assert RemoveSpaces(a) == ra;
        assert RemoveSpaces(b) == rb;
      } else {
        assert RemoveSpaces(a) == ra + [a[n]];
        assert RemoveSpaces(b) == rb + [b[n]];
        SnocInjective(ra, rb, a[n], b[n]);
      }
    }
  }

  lemma DropLastAppend<T>(x: seq<T>, y: seq<T>)
    requires |y| > 0
    ensures (x + y)[..|x + y| - 1] == x + y[..|y| - 1]
  {
  }

  lemma AppendAssoc<T>(x: seq<T>, y: seq<T>, z: seq<T>)
    ensures (x + y) + z == x + (y + z)
  {
  }

  /** Space removal distributes over concatenation, so it deletes each space wherever it sits. */
  lemma {:induction false} RemoveSpacesAppend(a: string, b: string)
    ensures RemoveSpaces(a + b) == RemoveSpaces(a) + RemoveSpaces(b)
  {
    if |b| == 0 {
      assert a + b == a;
    } else {
      var n := |b| - 1;
      var last := if b[n] == ' ' then [] else [b[n]];
      RemoveSpacesAppend(a, b[..n]);
      DropLastAppend(a, b);
      assert RemoveSpaces(a + b) == RemoveSpaces(a + b[..n]) + last;
      AppendAssoc(RemoveSpaces(a), RemoveSpaces(b[..n]), last);
    }
  }
}

=== FILE: game.dfy ===
/**
 The round-level state machine of the `Application` class in app.py, with the
 widget calls taken out: drawing a word, building the display buffer, revealing
 a guessed letter, giving a hint, and scoring a typed answer. `suggest_letter`,
 `give_hint`, `type_word` and `verify_answer` are pure functions from the state and
 the user's input to a `Step`: the next state and the branch taken. `update_word` and
 `toggle_flashcard_mode` map the state and the random draws to the next state, or to
 `None` while the redraw loop has not exited.
 */
module Game {
  import opened Options
  import opened Chars
  import opened TextUtils
  import opened Buffer

  /** One `(word, definition)` pair of the word bank. */
  datatype Entry = Entry(word: string, definition: string)

  /** The fields of `Application` the puzzle reads and writes. */
  datatype State = State(
    currentWord: Option<string>,
    currentDefinition: Option<string>,
    displayed: string,
    flashcard: bool,
    score: nat,
    attempts: nat)

  /** The state `Application.__init__` starts from. */
  const Initial: State := State(None, None, [], true, 0, 0)

  /** The branch a handler took. Most branches show a message box or update a label; a given
      hint shows no message box but redraws the displayed word. Only a cancelled or empty
      dialog answer and `Ignored` (`verify_answer` without a word) show nothing. */
  datatype Outcome =
    | NoWordSelected
    | Ignored
    | NotFlashcard
    | NoInput
    | NotOneLetter
    | Revealed(count: nat, complete: bool)
    | NothingDisplayed
    | AlreadyComplete
    | NoMismatch
    | Hinted(index: nat, complete: bool)
    | Correct
    | Wrong

  datatype Step = Step(state: State, outcome: Outcome)

  /** `check_word_selected`: a word is selected when it is neither `None` nor empty. */
  predicate WordSelected(s: State)
  {
    s.currentWord.Some? && s.currentWord.value != []
  }

  /** `check_word_selected` gates `suggest_letter`, `give_hint` and `type_word`: each reports
      that no word is selected exactly when the word is `None` or empty.
      `verify_answer` tests the word on its own and returns silently instead. All four then
      leave the state as it was. */
  lemma WordSelectedGuard(s: State, input: Option<string>, pick: nat, typed: Option<string>, answer: string)
    ensures s.currentWord.None? || s.currentWord == Some([]) <==> !WordSelected(s)
    ensures !WordSelected(s) <==> SuggestLetter(s, input).outcome == NoWordSelected
    ensures !WordSelected(s) <==> GiveHint(s, pick).outcome == NoWordSelected
    ensures !WordSelected(s) <==> TypeWord(s, typed).outcome == NoWordSelected
    ensures !WordSelected(s) <==> VerifyAnswer(s, answer).outcome == Ignored
    ensures !WordSelected(s) ==>
      SuggestLetter(s, input).state == s && GiveHint(s, pick).state == s
      && TypeWord(s, typed).state == s && VerifyAnswer(s, answer).state == s
  {
  }

  /** What the handlers keep: the buffer has the word's shape, and in flashcard mode it
      only ever shows true characters or the placeholder. */
  predicate Consistent(s: State)
  {
    WordSelected(s) ==>
      SpaceAligned(s.displayed, s.currentWord.value)
      && (s.flashcard ==> Concealing(s.displayed, s.currentWord.value))
  }

  lemma InitialConsistent()
    ensures Consistent(Initial) && Initial.score <= Initial.attempts
  {
  }

  // ---------------------------------------------------------------- word draw

  /** A draw ends the redraw loop: its word differs from the previous one, or the pool
      has a single entry. */
  predicate Accepted(pool: seq<Entry>, previous: Option<string>, draw: nat)
    requires |pool| > 0
  {
    |pool| <= 1 || Some(pool[draw % |pool|].word) != previous
  }

  /** The draw-and-redraw loop of `update_word`, `random.choice` returning the entry at
      `draws[j] % |pool|` on its j-th call. `None` means the loop has not exited within the
      draws supplied; otherwise the result is the first accepted draw. */
  function Draw(pool: seq<Entry>, previous: Option<string>, draws: seq<nat>): (r: Option<nat>)
    requires |pool| > 0
    ensures r.Some? <==> exists j :: 0 <= j < |draws| && Accepted(pool, previous, draws[j])
    ensures r.Some? ==>
      exists j :: 0 <= j < |draws| && r.value == draws[j] % |pool| && Accepted(pool, previous, draws[j])
                  && forall i :: 0 <= i < j ==> !Accepted(pool, previous, draws[i])
    ensures r.Some? ==> r.value < |pool| && (|pool| > 1 ==> Some(pool[r.value].word) != previous)
    decreases |draws|
  {
    if |draws| == 0 then None
    else if Accepted(pool, previous, draws[0]) then
      Some(draws[0] % |pool|)
    else
      var r := Draw(pool, previous, draws[1..]);
      assert forall j :: 1 <= j < |draws| ==> draws[j] == draws[1..][j - 1];
      if r.Some? then
        var j :| 0 <= j < |draws| - 1 && r.value == draws[1..][j] % |pool| && Accepted(pool, previous, draws[1..][j])
                 && forall i :: 0 <= i < j ==> !Accepted(pool, previous, draws[1..][i]);
        assert forall i :: 0 <= i < j + 1 ==> !Accepted(pool, previous, draws[i]);
        r
      else
        r
  }

  /** A pool of several entries that all carry the previous word (a word listed twice, say)
      never lets the redraw loop exit, whatever the draws. */
  lemma DrawNeverExits(pool: seq<Entry>, w: string, draws: seq<nat>)
    requires |pool| > 1 && forall e :: e in pool ==> e.word == w
    ensures Draw(pool, Some(w), draws).None?
  {
    forall j | 0 <= j < |draws|
      ensures !Accepted(pool, Some(w), draws[j])
    {
      assert pool[draws[j] % |pool|] in pool;
    }
  }

  /** `update_word`. `selection` is the word list of the chosen theme and subtheme, `None`
      when either is unset; `draws` feeds `random.choice` and `rand` feeds the shuffle.
      The result is `None` only when the redraw loop has not exited within `draws`. */
  function UpdateWord(s: State, selection: Option<seq<Entry>>, draws: seq<nat>, rand: nat -> nat): (r: Option<State>)
    ensures selection.None? ==>
      r == Some(s.(currentWord := None, currentDefinition := None, displayed := []))
    ensures selection == Some([]) ==>
      r == Some(s.(currentWord := None, currentDefinition := None))
    ensures selection.Some? && |selection.value| > 0 ==>
      (r.Some? <==> exists j :: 0 <= j < |draws| && Accepted(selection.value, s.currentWord, draws[j]))
    ensures r.Some? && selection.Some? && |selection.value| > 0 ==>
      var t := r.value;
      t.currentWord.Some? && t.currentDefinition.Some?
      && Entry(t.currentWord.value, t.currentDefinition.value) in selection.value
      && (|selection.value| > 1 ==> t.currentWord != s.currentWord)
      && |t.displayed| == |t.currentWord.value|
      && (t.flashcard ==> forall i :: 0 <= i < |t.displayed| ==>
            t.displayed[i] == (if t.currentWord.value[i] == ' ' then ' ' else Placeholder))
      && (!t.flashcard ==> t.displayed == ShufflePreservingPunctuation(t.currentWord.value, rand)
                           && KeepsPunctuation(t.currentWord.value, t.displayed)
                           && multiset(t.displayed) == multiset(t.currentWord.value))
    ensures r.Some? ==>
      r.value.flashcard == s.flashcard && r.value.score == s.score && r.value.attempts == s.attempts
    ensures r.Some? ==> Consistent(r.value)
  {
    match selection
    case None =>
      Some(s.(currentWord := None, currentDefinition := None, displayed := []))
    case Some(pool) =>
      if |pool| == 0 then
        Some(s.(currentWord := None, currentDefinition := None))
      else
        match Draw(pool, s.currentWord, draws)
        case None => None
        case Some(k) =>
          var w := pool[k].word;
          var d := if s.flashcard then Blanks(w) else ShufflePreservingPunctuation(w, rand);
          assert !s.flashcard ==> SpaceAligned(d, w) by {
            assert !IsLetter(' ');
          }
          Some(s.(currentWord := Some(w), currentDefinition := Some(pool[k].definition), displayed := d))
  }

  /** `toggle_flashcard_mode`: flips the mode and draws a new word for it. */
  function ToggleFlashcardMode(s: State, selection: Option<seq<Entry>>, draws: seq<nat>, rand: nat -> nat): (r: Option<State>)
    ensures r.Some? ==> r.value.flashcard == !s.flashcard && Consistent(r.value)
  {
    UpdateWord(s.(flashcard := !s.flashcard), selection, draws, rand)
  }

  // ---------------------------------------------------------------- letters

  /** `suggest_letter`, `input` being the dialog's answer (`None` when cancelled). */
  function SuggestLetter(s: State, input: Option<string>): (r: Step)
    ensures !WordSelected(s) ==> r == Step(s, NoWordSelected)
    ensures WordSelected(s) && !s.flashcard ==> r == Step(s, NotFlashcard)
    ensures WordSelected(s) && s.flashcard && (input.None? || input.value == []) ==> r == Step(s, NoInput)
    ensures WordSelected(s) && s.flashcard && input.Some? && input.value != [] && |Strip(input.value)| != 1 ==>
      r == Step(s, NotOneLetter)
    ensures WordSelected(s) && s.flashcard && input.Some? && input.value != [] && |Strip(input.value)| == 1 ==>
      var c := Strip(input.value)[0];
      var d, w, d' := s.displayed, s.currentWord.value, r.state.displayed;
      r.state == s.(displayed := d')
      && |d'| == |d|
      && (forall i :: 0 <= i < |d| && Matches(d, w, c, i) ==> d'[i] == w[i])
      && (forall i :: 0 <= i < |d| && !Matches(d, w, c, i) ==> d'[i] == d[i])
      && r.outcome == Revealed(|MatchSet(d, w, c)|, Complete(d', w))
    ensures Consistent(s) ==> Consistent(r.state)
  {
    if !WordSelected(s) then Step(s, NoWordSelected)
    else if !s.flashcard then Step(s, NotFlashcard)
    else if input.None? || input.value == [] then Step(s, NoInput)
    else
      var letter := Strip(input.value);
      if |letter| != 1 then Step(s, NotOneLetter)
      else
        var w := s.currentWord.value;
        var rv := RevealLetter(s.displayed, w, letter[0]);
        RevealKeepsInvariants(s.displayed, w, letter[0]);
        Step(s.(displayed := rv.0), Revealed(rv.1, Complete(rv.0, w)))
  }

  /** Suggesting the same letter twice: the second call leaves the state as the first left
      it, and reveals nothing when the word holds no placeholder character. */
  lemma SuggestTwice(s: State, input: Option<string>)
    ensures var s1 := SuggestLetter(s, input).state;
            var r2 := SuggestLetter(s1, input);
            r2.state == s1
            && (r2.outcome.Revealed? && Placeholder !in s.currentWord.value ==> r2.outcome.count == 0)
  {
  }

  // ---------------------------------------------------------------- hints

  lemma HintKeepsConsistent(s: State, k: nat)
    requires WordSelected(s) && Mismatch(s.displayed, s.currentWord.value, k)
    ensures Consistent(s) ==> Consistent(s.(displayed := s.displayed[k := s.currentWord.value[k]]))
  {
  }

  /** `give_hint`, `pick` feeding `random.choice` over the mismatching positions. Not
      restricted to flashcard mode. */
  function GiveHint(s: State, pick: nat): (r: Step)
    ensures !WordSelected(s) ==> r == Step(s, NoWordSelected)
    ensures WordSelected(s) && s.displayed == [] ==> r == Step(s, NothingDisplayed)
    ensures WordSelected(s) && s.displayed != [] && Complete(s.displayed, s.currentWord.value) ==>
      r == Step(s, AlreadyComplete)
    ensures WordSelected(s) && s.displayed != [] && !Complete(s.displayed, s.currentWord.value)
            && NonMatching(s.displayed, s.currentWord.value) == [] ==>
      r == Step(s, NoMismatch)
    ensures WordSelected(s) && s.displayed != [] && !Complete(s.displayed, s.currentWord.value)
            && NonMatching(s.displayed, s.currentWord.value) != [] ==>
      var d, w := s.displayed, s.currentWord.value;
      var nm := NonMatching(d, w);
      r.outcome.Hinted? && r.outcome.index == nm[pick % |nm|]
    ensures r.outcome.Hinted? ==>
      var d, w, k := s.displayed, s.currentWord.value, r.outcome.index;
      WordSelected(s)
      && Mismatch(d, w, k)
      && r.state == s.(displayed := d[k := w[k]])
      && |NonMatching(r.state.displayed, w)| == |NonMatching(d, w)| - 1
      && r.outcome.complete == Complete(r.state.displayed, w)
    ensures Consistent(s) ==> r.outcome != NoMismatch
    ensures Consistent(s) ==> Consistent(r.state)
  {
    if !WordSelected(s) then Step(s, NoWordSelected)
    else if s.displayed == [] then Step(s, NothingDisplayed)
    else
      var d, w := s.displayed, s.currentWord.value;
      assert SpaceAligned(d, w) ==> (Complete(d, w) <==> NonMatching(d, w) == []) by {
        if SpaceAligned(d, w) {
          CompleteIffNoMismatch(d, w);
        }
      }
      if Complete(d, w) then Step(s, AlreadyComplete)
      else
        var nm := NonMatching(d, w);
        if nm == [] then
          Step(s, NoMismatch)
        else
          var k := nm[pick % |nm|];
          var d' := d[k := w[k]];
          HintShrinksNonMatching(d, w, k);
          HintKeepsConsistent(s, k);
          Step(s.(displayed := d'), Hinted(k, Complete(d', w)))
  }

  /** Hints given one after another, the i-th using `picks[i]`. */
  function HintRepeatedly(s: State, picks: seq<nat>): (t: State)
    decreases |picks|
  {
    if |picks| == 0 then s else HintRepeatedly(GiveHint(s, picks[0]).state, picks[1..])
  }

  /** As many hints as there are mismatching positions complete the word, after which a
      further hint reports the word already complete and changes nothing. */
  lemma {:induction false} HintsComplete(s: State, picks: seq<nat>, pick: nat)
    requires Consistent(s) && WordSelected(s)
    requires |picks| >= |NonMatching(s.displayed, s.currentWord.value)|
    ensures var t := HintRepeatedly(s, picks);
            t.currentWord == s.currentWord
            && Complete(t.displayed, t.currentWord.value)
            && GiveHint(t, pick) == Step(t, AlreadyComplete)
    decreases |picks|
  {
    var d, w := s.displayed, s.currentWord.value;
    CompleteIffNoMismatch(d, w);
    if |picks| > 0 {
      var s1 := GiveHint(s, picks[0]).state;
      HintsComplete(s1, picks[1..], pick);
    }
  }

  // ---------------------------------------------------------------- answers

  /** `verify_answer`: the score goes up by one exactly when the answer equals the word
      up to case; the buffer and everything else are left alone. Without a word it returns
      silently. */
  function VerifyAnswer(s: State, answer: string): (r: Step)
    ensures !WordSelected(s) ==> r == Step(s, Ignored)
    ensures WordSelected(s) ==>
      (r.outcome == Correct <==> Lower(answer) == Lower(s.currentWord.value))
      && (r.outcome == Wrong <==> Lower(answer) != Lower(s.currentWord.value))
      && r.state == s.(score := if r.outcome == Correct then s.score + 1 else s.score)
  {
    if !WordSelected(s) then Step(s, Ignored)
    else if Lower(answer) == Lower(s.currentWord.value) then Step(s.(score := s.score + 1), Correct)
    else Step(s, Wrong)
  }

  /** `type_word`: a non-empty answer counts as an attempt before it is verified, so the
      score never overtakes the number of attempts. */
  function TypeWord(s: State, answer: Option<string>): (r: Step)
    ensures !WordSelected(s) ==> r == Step(s, NoWordSelected)
    ensures WordSelected(s) && (answer.None? || answer.value == []) ==> r == Step(s, NoInput)
    ensures WordSelected(s) && answer.Some? && answer.value != [] ==>
      var correct := Lower(answer.value) == Lower(s.currentWord.value);
      r.outcome == (if correct then Correct else Wrong)
      && r.state == s.(attempts := s.attempts + 1, score := if correct then s.score + 1 else s.score)
    ensures s.score <= s.attempts ==> r.state.score <= r.state.attempts
    ensures Consistent(s) ==> Consistent(r.state)
  {
    if !WordSelected(s) then Step(s, NoWordSelected)
    else if answer.None? || answer.value == [] then Step(s, NoInput)
    else VerifyAnswer(s.(attempts := s.attempts + 1), answer.value)
  }

  // ---------------------------------------------------------------- examples

  /** A round on "humérus" in flashcard mode: every letter starts concealed (é included),
      guessing "u" reveals positions 1 and 5, and typing the word in capitals is a correct
      answer. */
  lemma HumerusExample()
    ensures var s := HumerusStart();
            s.displayed == "_______"
            && SuggestLetter(s, Some(" u ")) == Step(s.(displayed := "_u___u_"), Revealed(2, false))
            && TypeWord(s, Some("HUMÉRUS")) == Step(s.(attempts := 1, score := 1), Correct)
  {
    HumerusBlanks();
    HumerusSuggest();
    HumerusTyped();
  }

  function HumerusStart(): (s: State)
  {
    State(Some("humérus"), Some("os du bras"), Blanks("humérus"), true, 0, 0)
  }

  lemma HumerusBlanks()
    ensures Blanks("humérus") == "_______"
  {
  }

  lemma HumerusSuggest()
    ensures var s := HumerusStart();
            SuggestLetter(s, Some(" u ")) == Step(s.(displayed := "_u___u_"), Revealed(2, false))
  {
    HumerusBlanks();
    StripSpacedLetter();
    HumerusReveal();
  }

  lemma StripSpacedLetter()
    ensures Strip(" u ") == "u"
  {
  }

  lemma HumerusTyped()
    ensures var s := HumerusStart();
            TypeWord(s, Some("HUMÉRUS")) == Step(s.(attempts := 1, score := 1), Correct)
  {
  }

  lemma HumerusReveal()
    ensures RevealLetter("_______", "humérus", 'u') == ("_u___u_", 2)
    ensures !Complete("_u___u_", "humérus")
  {
    var d, w := "_______", "humérus";
    assert w == ['h', 'u', 'm', '\U{E9}', 'r', 'u', 's'];
    assert LowerChar('h') == 'h' && LowerChar('u') == 'u' && LowerChar('m') == 'm';
    assert LowerChar('\U{E9}') == '\U{E9}' && LowerChar('r') == 'r' && LowerChar('s') == 's';
    forall i | 0 <= i < |d|
      ensures Matches(d, w, 'u', i) <==> (i == 1 || i == 5)
    {
      assert d[i] == Placeholder;
      assert LowerChar(w[i]) == w[i];
      assert w[i] == 'u' <==> (i == 1 || i == 5);
    }
    assert MatchSet(d, w, 'u') == {1, 5};
    assert |MatchSet(d, w, 'u')| == 2;
    var r := RevealLetter(d, w, 'u');
    forall i | 0 <= i < 7
      ensures r.0[i] == "_u___u_"[i]
    {
      if i == 1 || i == 5 {
        assert Matches(d, w, 'u', i);
      } else {
        assert !Matches(d, w, 'u', i);
      }
    }
    assert r.0 == "_u___u_";
    assert r.1 == 2;
    var e := "_u___u_";
    assert Mismatch(e, w, 0);
    CompleteIffNoMismatch(e, w);
  }

  /** Flashcard mode keeps only spaces: in "arc de l'aorte" the apostrophe is concealed
      like a letter. */
  lemma ArcExample()
    ensures Blanks("arc de l'aorte") == "___ __ _______"
  {
  }
}

=== FILE: options.dfy ===
/** The optional value used wherever the application holds `None` or a value. */
module Options {

  datatype Option<+T> = None | Some(value: T)
}

=== FILE: text_utils.dfy ===
/**
 The punctuation-preserving shuffle of utils/text_utils.py. The text is cut into
 maximal runs of letters and maximal runs of non-letters; every letter run is
 shuffled in place and every other run is copied unchanged.

 Randomness: `random.shuffle` is CPython's Fisher-Yates pass, which for
 `i = n-1 .. 1` swaps position `i` with `randbelow(i + 1)`. The k-th such draw
 of the whole call is supplied as `rand(k) % (i + 1)`.
 */
module TextUtils {
  import Chars

  /** The character class `[a-zA-ZÀ-ÖÙ-Ýà-öù-ý]`: every ASCII letter, no whitespace, no
      placeholder `_`, and nothing outside Latin-1. */
  predicate IsLetter(c: char)
    ensures ('a' <= c <= 'z' || 'A' <= c <= 'Z') ==> IsLetter(c)
    ensures IsLetter(c) ==> !Chars.IsWhitespace(c) && c != '_' && c as int < 0x100
  {
    ('a' <= c <= 'z') || ('A' <= c <= 'Z')
    || ('\U{C0}' <= c <= '\U{D6}') || ('\U{D9}' <= c <= '\U{DD}')
    || ('\U{E0}' <= c <= '\U{F6}') || ('\U{F9}' <= c <= '\U{FD}')
  }

  /** The letter class on the Latin-1 characters that are easiest to get wrong. */
  lemma LetterClassExamples()
    ensures IsLetter('é') && IsLetter('À') && IsLetter('Ö') && IsLetter('Ù') && IsLetter('ý')
    ensures !IsLetter('\U{D7}') && !IsLetter('\U{D8}') && !IsLetter('\U{DF}')
    ensures !IsLetter('\U{F7}') && !IsLetter('\U{FF}') && !IsLetter('\U{DE}') && !IsLetter('\U{F8}')
    ensures !IsLetter(' ') && !IsLetter('\'') && !IsLetter('-')
  {
  }

  /** A run: non-empty and entirely inside or entirely outside the letter class. */
  predicate IsRun(seg: string)
  {
    |seg| > 0 && forall i :: 0 <= i < |seg| ==> IsLetter(seg[i]) == IsLetter(seg[0])
  }

  /** The test `re.match(r'^[...]+$', seg)`: a non-empty string of letters only. On a run it
      is decided by the run's first character, which is how a segment's class is read. */
  predicate IsLetterRun(seg: string)
    ensures IsLetterRun(seg) ==> IsRun(seg)
    ensures IsRun(seg) ==> (IsLetterRun(seg) <==> IsLetter(seg[0]))
  {
    |seg| > 0 && forall i :: 0 <= i < |seg| ==> IsLetter(seg[i])
  }

  function Concat(ss: seq<string>): (r: string)
  {
    if |ss| == 0 then [] else ss[0] + Concat(ss[1..])
  }

  /** Length of the maximal run at the front of `s`. */
  function RunLength(s: string): (n: nat)
    requires |s| > 0
    ensures 1 <= n <= |s|
    ensures IsRun(s[..n])
    ensures n < |s| ==> IsLetter(s[n]) != IsLetter(s[0])
  {
    if |s| == 1 || IsLetter(s[1]) != IsLetter(s[0]) then 1
    else
      var m := RunLength(s[1..]);
      assert forall i :: 1 <= i < m + 1 ==> s[i] == s[1..][i - 1];
      m + 1
  }

  /** A partition of `s` into maximal runs, in order. */
  predicate IsRunPartition(segs: seq<string>, s: string)
  {
    Concat(segs) == s
    && (forall k :: 0 <= k < |segs| ==> IsRun(segs[k]))
    && (forall k :: 0 <= k < |segs| - 1 ==> IsLetter(segs[k][0]) != IsLetter(segs[k + 1][0]))
  }

  /** `pattern.findall(text)` for the pattern `([L]+|[^L]+)`: the maximal runs of `s`. */
  function Segments(s: string): (segs: seq<string>)
    ensures IsRunPartition(segs, s)
    decreases |s|
  {
    if |s| == 0 then []
    else
      var n := RunLength(s);
      var rest := Segments(s[n..]);
      assert s == s[..n] + Concat(rest);
      [s[..n]] + rest
  }

  /** The maximal run at the front is determined by where the class first changes. */
  lemma RunLengthUnique(s: string, n: nat)
    requires 0 < n <= |s|
    requires forall i :: 0 <= i < n ==> IsLetter(s[i]) == IsLetter(s[0])
    requires n < |s| ==> IsLetter(s[n]) != IsLetter(s[0])
    ensures RunLength(s) == n
  {
  }

  /** The maximal-run partition is unique: any partition into alternating runs is the one
      `Segments` produces. */
  lemma {:induction false} SegmentsUnique(segs: seq<string>, s: string)
    requires IsRunPartition(segs, s)
    ensures segs == Segments(s)
    decreases |segs|
  {
    if |segs| > 0 {
      var head, tail := segs[0], segs[1..];
      var n := |head|;
      assert s == head + Concat(tail);
      assert forall i :: 0 <= i < n ==> s[i] == head[i];
      if n < |s| {
        assert Concat(tail) == tail[0] + Concat(tail[1..]);
        assert s[n] == tail[0][0];
      }
      RunLengthUnique(s, n);
      assert s[..n] == head && s[n..] == Concat(tail);
      assert IsRunPartition(tail, s[n..]);
      SegmentsUnique(tail, s[n..]);
    }
  }

  function Swap(s: string, i: nat, j: nat): (r: string)
    requires i < |s| && j < |s|
    ensures |r| == |s| && multiset(r) == multiset(s)
  {
    s[i := s[j]][j := s[i]]
  }

  /** The Fisher-Yates loop of `random.shuffle` from index `i` down to 1, the first draw being
      number `k` of the oracle: the result is a rearrangement of `s`. */
  function FisherYates(s: string, i: nat, rand: nat -> nat, k: nat): (r: string)
    requires i < |s|
    ensures |r| == |s| && multiset(r) == multiset(s)
    decreases i
  {
    if i == 0 then s
    else FisherYates(Swap(s, i, rand(k) % (i + 1)), i - 1, rand, k + 1)
  }

  /** `random.shuffle(list(seg))`, drawing from oracle position `k` on. */
  function ShuffleRun(seg: string, rand: nat -> nat, k: nat): (r: string)
    ensures |r| == |seg| && multiset(r) == multiset(seg)
  {
    if |seg| <= 1 then seg else FisherYates(seg, |seg| - 1, rand, k)
  }

  /** Oracle draws `random.shuffle` consumes on a list of this length. */
  function Draws(seg: string): (n: nat)
  {
    if |seg| <= 1 then 0 else |seg| - 1
  }

  /** What one segment may become: a letter run a rearrangement of itself,
      anything else itself. */
  predicate SegmentShuffled(seg: string, out: string)
  {
    if IsLetterRun(seg) then |out| == |seg| && multiset(out) == multiset(seg)
    else out == seg
  }

  /** The loop over `segments`, one result per segment, oracle draws consumed from `k` on. */
  function ShuffleSegments(segs: seq<string>, rand: nat -> nat, k: nat): (outs: seq<string>)
    ensures |outs| == |segs|
    ensures forall m :: 0 <= m < |segs| ==> SegmentShuffled(segs[m], outs[m])
    decreases |segs|
  {
    if |segs| == 0 then []
    else
      var seg := segs[0];
      if IsLetterRun(seg) then [ShuffleRun(seg, rand, k)] + ShuffleSegments(segs[1..], rand, k + Draws(seg))
      else [seg] + ShuffleSegments(segs[1..], rand, k)
  }

  /** Position-wise relation the shuffle keeps: same length, letters stay letters,
      non-letters stay where they are. */
  predicate KeepsPunctuation(text: string, r: string)
  {
    |r| == |text|
    && (forall i :: 0 <= i < |text| ==> (IsLetter(text[i]) <==> IsLetter(r[i])))
    && (forall i :: 0 <= i < |text| && !IsLetter(text[i]) ==> r[i] == text[i])
  }

  /** `shuffle_preserving_punctuation(text)`: the result has the input's length and
      characters, letters and non-letters in the same positions, and every non-letter
      exactly where it was. */
  function ShufflePreservingPunctuation(text: string, rand: nat -> nat): (r: string)
    ensures KeepsPunctuation(text, r)
    ensures multiset(r) == multiset(text)
  {
    var segs := Segments(text);
    var outs := ShuffleSegments(segs, rand, 0);
    ConcatShuffled(segs, outs);
    Concat(outs)
  }

  lemma SegmentKeepsPunctuation(seg: string, out: string)
    requires IsRun(seg)
    requires SegmentShuffled(seg, out)
    ensures KeepsPunctuation(seg, out)
  {
    if IsLetterRun(seg) {
      forall i | 0 <= i < |out|
        ensures IsLetter(out[i])
      {
        assert out[i] in multiset(seg);
      }
    }
  }

  lemma KeepsPunctuationAppend(a: string, b: string, x: string, y: string)
    requires KeepsPunctuation(a, x) && KeepsPunctuation(b, y)
    ensures KeepsPunctuation(a + b, x + y)
  {
  }

  /** Segment-wise facts lift to the concatenation. */
  lemma {:induction false} ConcatShuffled(segs: seq<string>, outs: seq<string>)
    requires |outs| == |segs|
    requires forall m :: 0 <= m < |segs| ==> IsRun(segs[m]) && SegmentShuffled(segs[m], outs[m])
    ensures KeepsPunctuation(Concat(segs), Concat(outs))
    ensures multiset(Concat(outs)) == multiset(Concat(segs))
    decreases |segs|
  {
    if |segs| > 0 {
      ConcatShuffled(segs[1..], outs[1..]);
      SegmentKeepsPunctuation(segs[0], outs[0]);
      KeepsPunctuationAppend(segs[0], Concat(segs[1..]), outs[0], Concat(outs[1..]));
    }
  }

  lemma {:induction false} ConcatAppend(a: seq<string>, b: seq<string>)
    ensures Concat(a + b) == Concat(a) + Concat(b)
    decreases |a|
  {
    if |a| == 0 {
      assert a + b == b;
    } else {
      assert (a + b)[0] == a[0];
      assert (a + b)[1..] == a[1..] + b;
      ConcatAppend(a[1..], b);
    }
  }

  /** Concatenations of element-wise equally long lists are equally long. */
  lemma {:induction false} ConcatSameLength(xs: seq<string>, ys: seq<string>)
    requires |xs| == |ys|
    requires forall m :: 0 <= m < |xs| ==> |xs[m]| == |ys[m]|
    ensures |Concat(xs)| == |Concat(ys)|
    decreases |xs|
  {
    if |xs| > 0 {
      ConcatSameLength(xs[1..], ys[1..]);
    }
  }

  /** Where element `m` of a list sits in its concatenation. */
  function Offset(xs: seq<string>, m: nat): (n: nat)
    requires m <= |xs|
  {
    |Concat(xs[..m])|
  }

  lemma ConcatSlice(xs: seq<string>, m: nat)
    requires m < |xs|
    ensures Offset(xs, m) + |xs[m]| <= |Concat(xs)|
    ensures Concat(xs)[Offset(xs, m)..Offset(xs, m) + |xs[m]|] == xs[m]
  {
    assert xs == xs[..m] + ([xs[m]] + xs[m + 1..]);
    ConcatAppend(xs[..m], [xs[m]] + xs[m + 1..]);
    ConcatAppend([xs[m]], xs[m + 1..]);
    assert Concat([xs[m]]) == xs[m];
  }

  /** `x` occurs in `s` starting at index `a`. */
  predicate SliceAt(s: string, a: nat, x: string)
  {
    a + |x| <= |s| && s[a..a + |x|] == x
  }

  /** Two lists with element-wise equal lengths: element `m` of each sits at the same
      offset of its concatenation. */
  lemma AlignedSlices(xs: seq<string>, ys: seq<string>, m: nat)
    requires |xs| == |ys| && m < |xs|
    requires forall k :: 0 <= k < |xs| ==> |xs[k]| == |ys[k]|
    ensures Offset(xs, m) == Offset(ys, m)
    ensures SliceAt(Concat(xs), Offset(xs, m), xs[m])
    ensures SliceAt(Concat(ys), Offset(ys, m), ys[m])
  {
    ConcatSlice(xs, m);
    ConcatSlice(ys, m);
    ConcatSameLength(xs[..m], ys[..m]);
  }

  /** Segment by segment: every run of the input occupies the same index range in the
      output, where a letter run holds a rearrangement of itself and any other run holds
      itself. */
  lemma ShuffleBySegments(text: string, rand: nat -> nat, m: nat)
    requires m < |Segments(text)|
    ensures SliceAt(text, Offset(Segments(text), m), Segments(text)[m])
    ensures SliceAt(ShufflePreservingPunctuation(text, rand), Offset(Segments(text), m),
                    ShuffleSegments(Segments(text), rand, 0)[m])
    ensures SegmentShuffled(Segments(text)[m], ShuffleSegments(Segments(text), rand, 0)[m])
  {
    var segs := Segments(text);
    var outs := ShuffleSegments(segs, rand, 0);
    assert ShufflePreservingPunctuation(text, rand) == Concat(outs);
    assert Concat(segs) == text;
    AlignedSlices(segs, outs, m);
  }
}
